=== FILE: README.md ===
# Tic-tac-toe game logic in Dafny

A model of the game logic of a browser tic-tac-toe game in which each of the
two players is either a human or a computer player of strength 0 to 4. Four
modules follow the program's structure:

- `Board` (`board.dfy`): the nine-cell board (`Empty`, `O`, `X`), the eight
  fixed win lines, cell reads and writes, line counting, win detection and
  full-board detection. The board is an immutable `seq<Cell>` of length 9.
- `AiPlayer` (`ai_player.dfy`): the computer player. It runs a depth-limited
  minimax, with the per-strength cutoff table `[0, 2, 4, 6, 10]` and the
  heuristic threshold table `[101, 100, 6, 3, 0]`. Terminal scores are
  ±100 scaled by depth. Past the cutoff it uses a per-line heuristic, and it
  picks any cell among those tied for the best score.
- `Game` (`game.dfy`): the turn state machine. O moves first. `ProcessMove`
  places the mark, flips the turn and reports a win, a draw or a continuing
  game, checking the win first. `GetMove` runs the engine on a computer
  player's turn and reports "awaiting input" on a human's turn.
- `Legacy` (`legacy.dfy`): the older single-file version of the game. Its
  engine does no search: each blank cell gets an additive score per line
  through it, and scores at or below a per-strength threshold are zeroed.
  It has its own win check, a move counter that declares the draw, input
  validation, and the chain of computer moves that `getMove` starts.

The search in the program places a mark on the shared board, recurses, then
removes the mark. Here the search recurses on a marked copy instead, so the
board the caller holds cannot change. `Board.RetractRestores` states the
place-then-retract identity that makes the two agree. `Minimax` terminates
because every recursive call has one fewer blank cell.

Three behaviours of the code are easy to misread; the model follows what the
code does:

- Heuristic signs. The comment at `src/js/aiPlayer.js:133` labels case 1 as
  "Zero marks for player, 1 for opponent", which reads as a penalty. But the
  line `score -= (isMax ? -3 : 3)` subtracts a negated value. So a line
  holding only the opponent's marks scores with the same sign as a line
  holding only the mover's marks. `AiPlayer.LineScoreTable` and
  `AiPlayer.HeuristicIgnoresWhoseMarks` state what the code does.
- Strength out of range. The constructor comment at `src/js/game.js:14-16`
  asks for a strength from 0 to 4, but nothing enforces it. For any other
  strength, `maxDepths[s]` reads `undefined`, and `undefined > 0` is false.
  So such a player never searches and plays like strength 0
  (`AiPlayer.Searches`). In the legacy engine, `score <= undefined` is
  false, so no score is zeroed (`Legacy.Thresholded`).
- No error results from `processMove`. The code's `processMove` checks
  neither the cell nor whether the game has ended. `Game.ProcessMove`
  therefore only requires an index in 0..8, overwrites whatever the cell
  holds, and goes on after a win. Validation is `Game.IsValidMove`, which
  the caller consults.

In the legacy program, `resetGame` ends by calling `getMove()`
(`js/tictactoe.js:214`). `processMove` calls it when play continues
(`js/tictactoe.js:176`). `play` ends by calling `processMove`
(`js/tictactoe.js:137`), so it reaches `getMove()` through that call.
`Legacy.Reset` and `Legacy.ProcessMove` stop before the call, and so does
`Legacy.Play`, through `Legacy.ProcessMove`. `Legacy.GetMove` models, as a
separate step, the chain of computer moves the call starts.

Where a function's property is stated by a lemma about it rather than by its
own contract, its row names the lemma and starts with the program's name for
the function.

## Model

| member | source | states |
|---|---|---|
| Board.NumLines | src/js/board.js:22-24 | there are exactly 8 win lines |
| Board.LinesAreDistinctTriples | src/js/board.js:6-15 | the line table has 8 entries, each three distinct cell positions |
| Board.Other | src/js/aiPlayer.js:66 | the opposing mark is never the mark itself |
| Board.NewBoard | src/js/board.js:17-19 | a new board has every cell blank |
| Board.NewBoardIsOpen | src/js/board.js:17-19 | a new board has 9 blank cells, is not complete, and has no win for either mark |
| Board.SetMarkAt | src/js/board.js:32-34 | after setMarkAt(i, c), cell i reads c and every other cell reads as before |
| Board.MarkingFillsOnlyThatCell | src/js/board.js:46-49 | cellIsEmpty (`CellIsEmpty`) after setMarkAt(i, mark) holds exactly for the cells other than i that were blank before |
| Board.RetractRestores | src/js/aiPlayer.js:81-92 | marking a blank cell and then blanking it gives back the original board |
| Board.MarkingUsesOneEmptyCell | src/js/board.js:32-34 | marking a blank cell takes one blank cell away, adds one of the mark, and leaves the other mark's count alone |
| Board.CountFrom | src/js/board.js:72-81 | countMarks' loop from position i on counts exactly the positions whose cell holds the symbol; the count is at most the number of cells left, is full exactly when every one holds the symbol, and is zero exactly when none does |
| Board.CountMarks | src/js/board.js:72-81 | the count for a line is exactly the number of its three cells holding the symbol, so it is in [0,3], is 3 exactly when the whole line holds it, and is 0 exactly when no cell does |
| Board.WinIffFilledLine | src/js/board.js:51-59 | checkForWin (`HasWin`) holds exactly when some line holds c in all three cells |
| Board.FullIffNoEmptyCell | src/js/board.js:61-70 | checkForComplete (`IsFull`) holds exactly when no cell is blank, and exactly when no cell is empty by cellIsEmpty |
| Board.PlacingCannotHelpOthers | src/js/board.js:52-59 | a line held by another symbol after a mark is placed was already there before the move |
| AiPlayer.AdjustScore | src/js/aiPlayer.js:117-119 | the depth scaling turns +100 into 100 - 5·depth and -100 into -(100 - 5·depth), and keeps 0 at 0 |
| AiPlayer.HeuristicFrom | src/js/aiPlayer.js:124-155 | the sum over lines l..7 is within ±6 per line and is 0 when the threshold is above 6 |
| AiPlayer.EvalNonTerminal | src/js/aiPlayer.js:122-156 | the heuristic is within [-48, 48], and it is 0 at thresholds above 6 (strength 1) |
| AiPlayer.LineScoreTable | src/js/aiPlayer.js:131-153 | the switch on own·10+opp gives ±3 for (0,1) and (1,0) when threshold ≤ 3, ±6 for (0,2) and (2,0) when threshold ≤ 6 (plus if maximising), -1 for (1,1), (1,2) and (2,1) when threshold ≤ 1, and 0 otherwise |
| AiPlayer.HeuristicIgnoresWhoseMarks | src/js/aiPlayer.js:131-147 | the heuristic gives the same value whichever of the two marks it scores for |
| AiPlayer.PerspectiveIsStable | src/js/aiPlayer.js:66 | the mark a node is judged for is the same in every child, and at the top of the search it is the AI's own mark |
| AiPlayer.EvalBoardOpposes | src/js/aiPlayer.js:103-114 | evalBoard (`EvalBoard`) is 100 exactly when the player has a line, -100 exactly when only the opponent has, 0 exactly when neither has, and the two marks score oppositely unless both have lines |
| AiPlayer.MinimaxTerminal | src/js/aiPlayer.js:63-72 | minimax (`Minimax`) at a decided position: a line for the judged mark scores 100 - 5·depth, otherwise a line for its opponent scores the negative of that, and a full board with no line scores 0 |
| AiPlayer.FoldBounds | src/js/aiPlayer.js:81-93 | the cell loop over given child values ends at least at (maximising) or at most at (minimising) the start value and every blank cell's value, and on the start value or one of those values |
| AiPlayer.SearchIsFold | src/js/aiPlayer.js:81-93 | minimax's cell loop (`Search`), which places a mark and recurses, yields the same value as the cell loop over the children's minimax values |
| AiPlayer.SearchFold | src/js/aiPlayer.js:79-93 | the loop over cells (`Search`) ends at least at (maximising) or at most at (minimising) the start value and every blank cell's child value, and on the start value or one of those child values |
| AiPlayer.SearchPicksExtremeChild | src/js/aiPlayer.js:74-100 | the cell loop of minimax (`Search`) from ±101 below the cutoff: on a non-full position whose children lie inside (-101, 101), it yields the maximum over the children when maximising and the minimum when minimising, and some child reaches it |
| AiPlayer.MinimaxPicksExtremeChild | src/js/aiPlayer.js:63-101 | minimax (`Minimax`) at a real strength, on a position with no line and a blank cell, above that strength's cutoff: it is worth the maximum over its children when maximising and the minimum when minimising, and some child reaches it |
| AiPlayer.MinimaxBound | src/js/aiPlayer.js:63-101 | minimax (`Minimax`) for cutoffs up to 10: a node at depth d is worth between -(100 - 5d) and 100 - 5d |
| AiPlayer.MinimaxWithoutOwnLine | src/js/aiPlayer.js:64-101 | with no line for the judged mark, a node at depth d is worth at most max(48, 100 - 5(d+1)) |
| AiPlayer.StrongestSearchIsExhaustive | src/js/aiPlayer.js:79-97 | at strength 4 (cutoff 10) the value at a node with at least depth-many marks equals its value under any deeper cutoff and any threshold, so the heuristic is never reached |
| AiPlayer.StrongestScoresAreExhaustive | src/js/aiPlayer.js:32-36 | every strength-4 cell score is a full search of the game tree below that move |
| AiPlayer.CellScore | src/js/aiPlayer.js:22-47 | an occupied cell scores -1000, a blank cell scores -101 at a strength that does not search, and a searched blank cell scores within [-95, 95] |
| AiPlayer.BestFromFold | src/js/aiPlayer.js:19-48 | the running best score never drops below its start, ends at least every searched blank cell's score, and equals its start or one of those scores; without search it stays at its start |
| AiPlayer.CandidatesAreBestEmptyCells | src/js/aiPlayer.js:18-57 | possibleMoves (`Candidates`) is exactly the set of blank cells that score at least as well as every blank cell: every candidate is blank and beats or ties every blank cell, every blank cell that beats or ties every blank cell is a candidate, and there is a candidate whenever a cell is blank |
| AiPlayer.AIMove | src/js/aiPlayer.js:18-61 | the move returned is a candidate, is a blank cell, and scores at least as well as any blank cell |
| AiPlayer.WeakestPicksAnyEmptyCell | src/js/aiPlayer.js:29-32 | a player that does not search (strength 0) has every blank cell as a candidate and nothing else |
| AiPlayer.TakesImmediateWin | src/js/aiPlayer.js:32-40 | a searching player offered a cell that completes its own line picks only cells that complete a line |
| AiPlayer.TakesTheOnlyWinningCell | src/js/aiPlayer.js:51-57 | when exactly one blank cell completes the mover's line, that cell is the only candidate |
| AiPlayer.CompletesTopRow | src/js/aiPlayer.js:18-61 | on O O _ / X X _ / _ _ _ with O to move, every searching strength plays cell 2 only |
| Game.MakePlayer | src/js/game.js:21-22 | type 'A' gives a computer player with the given strength, and any other type a human player, holding the given mark |
| Game.NewGame | src/js/game.js:17-23 | a new game has a blank board, player 0 holding O and player 1 holding X, O to move, and every cell a valid move |
| Game.OtherPlayer | src/js/game.js:77-79 | the other player index differs from the current one |
| Game.ProcessMove | src/js/game.js:54-74 | the mover's mark lands at i and every other cell is unchanged; the turn flips; the report is W with the mover's mark iff the mover has a line, else D iff the board is full, else C with the next mover's mark, so a winning move that fills the board reports W |
| Game.GetMove | src/js/game.js:36-46 | a human turn reports P and changes nothing; a computer turn is processMove of one of the engine's candidate cells, which is a valid move and keeps O's count minus X's equal to the turn |
| Game.ValidMoveKeepsBalance | src/js/game.js:54-57 | a move into a blank cell keeps O's count minus X's count equal to the turn index |
| Game.TurnFollowsBoard | src/js/game.js:30-33 | getMarkForCurrentPlayer (`MarkForCurrentPlayer`) in a balanced game is O when both have as many marks and X when O is one ahead |
| Game.MarksAlternate | src/js/game.js:30-33 | getMarkForCurrentPlayer (`MarkForCurrentPlayer`) alternates: after each processed move the mark to move is the other mark |
| Game.ContinuingGameHasRoom | src/js/game.js:64-71 | a move reported as C leaves a blank cell for the next player |
| Game.MoveUsesUpCell | src/js/game.js:48-57 | isValidMove (`IsValidMove`) after a processed move is false for the cell just played and unchanged for every other cell |
| Game.OnlyTheMoverCanWin | src/js/game.js:60-63 | when nobody had a line, a move never gives the opponent one |
| Legacy.Reset | js/tictactoe.js:202-209 | a reset game has a blank board, counter 0, player 0 to move, the given controllers and strengths, no win and no full board |
| Legacy.OtherPlayer | js/tictactoe.js:218-220 | the other player index differs from the current one |
| Legacy.LineBonus | js/tictactoe.js:77-85 | one line adds at most 20 to a cell's score |
| Legacy.LinesThrough | js/tictactoe.js:72-73 | the number of lines j..7 through a cell is at most 8 - j |
| Legacy.RawFrom | js/tictactoe.js:72-87 | a cell's raw score from lines j..7 is at most 20 per line through the cell |
| Legacy.Thresholded | js/tictactoe.js:89-92 | for a strength 0..4 a score at or below its threshold becomes 0 and a score above it is kept; for any other strength every score is kept |
| Legacy.Score | js/tictactoe.js:61-92 | an occupied cell scores -1 and a blank cell scores between 0 and 80 |
| Legacy.AIMove | js/tictactoe.js:53-109 | the chosen cell is a candidate, blank, and scores at least as well as any blank cell |
| Legacy.ProcessMove | js/tictactoe.js:164-173 | the mover's mark goes in and the turn flips; a win by either player reports the mover as winner and leaves the counter; otherwise the counter goes up by one, and a draw is reported exactly when it reaches 9 |
| Legacy.Play | js/tictactoe.js:113-140 | input is accepted exactly when it is a number 1..9 naming a blank cell, then that move is processed; a non-number or out-of-range number gives the value warning |
| Legacy.GetMove | js/tictactoe.js:40-50 | a human to move leaves the game unchanged; otherwise the result is what processing the returned cells in order gives, each one chosen by a computer player to move from its engine's candidates; marks already on the board are kept; a draw leaves a full board with no line, a win leaves the winner holding a line, and play-on leaves a human to move with a blank cell |
| Legacy.ExtendChain | js/tictactoe.js:170-177 | one more computer move at the end of a continuing chain extends the replay by processMove of that cell, and keeps every move an engine candidate |
| Legacy.MoveKeepsEarlierMarks | js/tictactoe.js:164-165 | a move into a blank cell keeps every mark already on the board |
| Legacy.WinByEitherPlayer | js/tictactoe.js:142-150 | the legacy checkForWin (`CheckForWin`) holds exactly when O or X has a line |
| Legacy.AtMostFourLinesPerCell | js/tictactoe.js:6-15 | every cell lies on at most four lines |
| Legacy.RawScoreBound | js/tictactoe.js:72-87 | a raw cell score is at most 80 |
| Legacy.MaxFromFold | js/tictactoe.js:94-105 | maxScore ends at least 0 and at least every blank cell's score, and equals 0 or one of those scores |
| Legacy.MaxSelectsBestBlank | js/tictactoe.js:94-105 | with occupied cells at -1 and blank cells at 0 or more, the cells reaching maxScore are blank, exist whenever a cell is blank, and each scores at least every blank cell; a blank cell scoring at least every blank cell reaches maxScore |
| Legacy.CandidatesAreBestEmptyCells | js/tictactoe.js:58-105 | possibleMoves (`Candidates`) is exactly the set of blank cells that score at least as well as every blank cell: every candidate is blank and beats or ties every blank cell, every blank cell that beats or ties every blank cell is a candidate, and there is one whenever a cell is blank |
| Legacy.BestBlanksAreCandidates | js/tictactoe.js:94-105 | every blank cell whose score beats or ties every blank cell's equals maxScore and so is in possibleMoves |
| Legacy.WeakestPicksAnyEmptyCell | js/tictactoe.js:72-92 | at strength 0 (threshold 100) every blank cell is a candidate, and nothing else is |
| Legacy.MoveKeepsCount | js/tictactoe.js:170-173 | after a move into a blank cell the counter still counts the marks, a draw is reported exactly when the board is full with no line, and a continuing game has a blank cell |
| Legacy.WinnerHasLine | js/tictactoe.js:170-189 | when nobody had a line before the move, the reported winner holds a line |

## Left out

- Floating point in `adjustScore`: the model uses the exact value
  raw·(20 - depth)/20. The scores that occur are ±(100 - 5d) for depths 0..10
  and heuristic integers of size at most 48. The floating-point values keep
  the same order and the same ties among them. This is argued, not proved.
- `Math.random`: the random pick becomes "any candidate" (`:|` in the
  `AIMove` methods). Uniformity of the pick is not modelled.
- `getBoard` / `setBoard` copies, and `getMarkAt`: with an immutable board
  value, a snapshot cannot alias later writes. These reads are the identity
  on the value (`Board.MarkAt`).
- Optimal play at strength 4 (that it never loses a game) is not proved. It would need a
  game-theoretic argument over the whole tic-tac-toe tree.
  `AiPlayer.StrongestSearchIsExhaustive` proves only that strength 4 searches
  the full tree.
- Indices outside 0..8 in `processMove` are excluded by `Game.ProcessMove`'s
  precondition, and neither case below is modelled. In the program, an
  index of 9 or more grows the board array. A negative index writes a stray
  property that is not an array element, so the nine cells stay as they
  were, while the turn still flips and the unchanged board is reported.
- `AiPlayer.AIMove`, `Legacy.AIMove`, `Game.GetMove`, `Legacy.GetMove`: a
  computer move requires a blank cell (and `Legacy.GetMove` a board with no
  line), so the full-board case is not modelled. In the program, a full
  board leaves `possibleMoves` empty and `AIMove` picks `undefined`
  (src/js/aiPlayer.js:51-60, js/tictactoe.js:108). `processMove(undefined)`
  then writes a stray `undefined` property, leaves the nine cells as they
  were and still flips the turn (src/js/game.js:56-57,
  js/tictactoe.js:165-166). The newer engine reports the unchanged board;
  the legacy one also counts the non-move. No caller reaches this case. A
  new game starts on an empty board (src/js/tictactoe.js:104,
  js/tictactoe.js:214). Play continues only after a move that neither won
  nor filled the board (src/js/tictactoe.js:38, js/tictactoe.js:176).
- `Legacy.Play`: `parseInt` of the typed text is a parameter (`None` for NaN).
  String parsing is not modelled.
- DOM rendering and event wiring are not modelled: `src/js/ui.js`,
  `src/js/tictactoe.js`, and in `js/tictactoe.js` the `initialiseGame`,
  `drawBoard` and `quit` display code, the form reads in `resetGame` and
  `play`, and the control enabling in `getMove`. Build files are left out too.
- The `Player`/`HumanPlayer` classes are modelled as `Game.Player` with a
  `Human | Ai(strength)` kind.

=== FILE: ai_player.dfy ===
/** The search-based computer player: a depth-limited minimax over the board,
    tuned per strength by a depth cutoff and a heuristic threshold, picking at
    random among the cells tied for the best score. The board is a value here,
    so the program's place-search-retract on a shared board becomes a search
    over marked copies; `Board.RetractRestores` states why the two agree. */
module AiPlayer {
  import opened Board

  /** Depth cutoff per strength 0..4. */
  const MaxDepths: seq<int> := [0, 2, 4, 6, 10]

  /** Heuristic threshold per strength 0..4: lower lets more patterns count. */
  const ScoreThresholds: seq<int> := [101, 100, 6, 3, 0]

  /** The two settings the search reads for a strength. */
  datatype Config = Config(maxDepth: int, threshold: int)

  predicate ValidStrength(s: int)
  {
    0 <= s < |MaxDepths|
  }

  function ConfigOf(s: int): Config
    requires ValidStrength(s)
  {
    Config(MaxDepths[s], ScoreThresholds[s])
  }

  /** Whether AIMove runs minimax at all (`maxDepths[strength] > 0`). A strength
      outside 0..4 reads `undefined` from the table, which is not > 0, so such a
      player never searches. */
  predicate Searches(s: int)
  {
    ValidStrength(s) && MaxDepths[s] > 0
  }

  /** The mark a node is judged for: the mover at a maximising node, the
      mover's opponent at a minimising one. */
  function Perspective(mark: Mark, isMax: bool): Mark
  {
    if isMax then mark else Other(mark)
  }

  /** evalBoard: +100 if `player` has a line, else -100 if the opponent has. */
  function EvalBoard(b: Board, player: Mark): int
  {
    if HasWin(b, player) then 100
    else if HasWin(b, Other(player)) then -100
    else 0
  }

  /** adjustScore: `score * (1 - 0.05 * depth)`, as the exact rational value,
      which is an integer for the scores evalBoard produces. */
  function AdjustScore(raw: int, depth: int): (r: int)
    ensures raw == 100 ==> r == 100 - 5 * depth
    ensures raw == -100 ==> r == -(100 - 5 * depth)
    ensures raw == 0 ==> r == 0
  {
    raw * (20 - depth) / 20
  }

  /** One line's heuristic contribution, switching on `own * 10 + opp` as the
      program does. */
  function LineScore(own: nat, opp: nat, isMax: bool, threshold: int): int
  {
    var count := own * 10 + opp;
    if count == 1 then -(if threshold <= 3 then (if isMax then -3 else 3) else 0)
    else if count == 2 then -(if threshold <= 6 then (if isMax then -6 else 6) else 0)
    else if count == 10 then (if threshold <= 3 then (if isMax then 3 else -3) else 0)
    else if count == 20 then (if threshold <= 6 then (if isMax then 6 else -6) else 0)
    else if count == 11 || count == 12 || count == 21 then (if threshold <= 1 then -1 else 0)
    else 0
  }

  /** The heuristic summed over lines l..7. */
  function HeuristicFrom(b: Board, mark: Mark, isMax: bool, threshold: int, l: int): (h: int)
    requires 0 <= l <= |Lines|
    decreases |Lines| - l
    ensures -6 * (|Lines| - l) <= h <= 6 * (|Lines| - l)
    ensures threshold > 6 ==> h == 0
  {
    if l == |Lines| then 0
    else
      LineScore(CountMarks(b, mark, l), CountMarks(b, Other(mark), l), isMax, threshold)
      + HeuristicFrom(b, mark, isMax, threshold, l + 1)
  }

  /** evalNonTerminalBoard: the static score used once the depth cutoff is hit.
      It is bounded by 8 lines times 6, and is zero whenever the threshold
      disables every pattern (strength 1). */
  function EvalNonTerminal(b: Board, mark: Mark, isMax: bool, threshold: int): (h: int)
    ensures -48 <= h <= 48
    ensures threshold > 6 ==> h == 0
  {
    HeuristicFrom(b, mark, isMax, threshold, 0)
  }

  /** minimax: the value of board `b` with `mark` to move, `depth` plies below
      the AI's own candidate move. */
  function Minimax(b: Board, mark: Mark, isMax: bool, depth: int, cfg: Config): int
    decreases EmptyCount(b), 1, 0
  {
    var score := AdjustScore(EvalBoard(b, Perspective(mark, isMax)), depth);
    if score != 0 || IsFull(b) then score
    else if depth < cfg.maxDepth then
      Search(b, mark, isMax, depth, cfg, 0, if isMax then -101 else 101)
    else EvalNonTerminal(b, mark, isMax, cfg.threshold)
  }

  /** The loop over cells i..8 inside minimax: each blank cell is marked,
      searched one ply deeper with the other mark, and folded into `best`. */
  function Search(b: Board, mark: Mark, isMax: bool, depth: int, cfg: Config, i: int, best: int): int
    requires 0 <= i <= 9
    decreases EmptyCount(b), 0, 9 - i
  {
    if i == 9 then best
    else if CellIsEmpty(b, i) then
      MarkingUsesOneEmptyCell(b, i, mark);
      var score := Minimax(SetMarkAt(b, i, mark), Other(mark), !isMax, depth + 1, cfg);
      Search(b, mark, isMax, depth, cfg, i + 1, if isMax then Max(best, score) else Min(best, score))
    else
      Search(b, mark, isMax, depth, cfg, i + 1, best)
  }

  /** The value minimax gives the child reached by marking blank cell i. */
  function Child(b: Board, mark: Mark, isMax: bool, depth: int, cfg: Config, i: Index): int
    requires CellIsEmpty(b, i)
  {
    Minimax(SetMarkAt(b, i, mark), Other(mark), !isMax, depth + 1, cfg)
  }

  /** The score AIMove gives cell i: -1000 when occupied, -101 when the
      strength does not search, else minimax of the reply position, which
      lies within [-95, 95]. So an occupied cell always scores below every
      blank one, and a searched blank cell always beats the start value -101. */
  function CellScore(b: Board, mark: Mark, strength: int, i: Index): (r: int)
    ensures !CellIsEmpty(b, i) ==> r == -1000
    ensures CellIsEmpty(b, i) && !Searches(strength) ==> r == -101
    ensures CellIsEmpty(b, i) && Searches(strength) ==> -95 <= r <= 95
  {
    if !CellIsEmpty(b, i) then -1000
    else if Searches(strength) then
      MinimaxBound(SetMarkAt(b, i, mark), Other(mark), false, 1, ConfigOf(strength));
      Minimax(SetMarkAt(b, i, mark), Other(mark), false, 1, ConfigOf(strength))
    else -101
  }

  /** The scores of all nine cells, as AIMove's first loop computes them. */
  function Scores(b: Board, mark: Mark, strength: int): seq<int>
  {
    seq(9, i requires 0 <= i < 9 => CellScore(b, mark, strength, i))
  }

  /** The running best score of AIMove's first loop, over cells i..8. It only
      moves when a searched blank cell is scored. */
  function BestFrom(b: Board, scores: seq<int>, searches: bool, i: int, best: int): int
    requires |scores| == 9 && 0 <= i <= 9
    decreases 9 - i
  {
    if i == 9 then best
    else if CellIsEmpty(b, i) && searches then
      BestFrom(b, scores, searches, i + 1, Max(best, scores[i]))
    else
      BestFrom(b, scores, searches, i + 1, best)
  }

  function BestScore(b: Board, mark: Mark, strength: int): int
  {
    BestFrom(b, Scores(b, mark, strength), Searches(strength), 0, -101)
  }

  /** possibleMoves: every cell whose score equals the best score. */
  function Candidates(b: Board, mark: Mark, strength: int): set<int>
  {
    var scores := Scores(b, mark, strength);
    set i: int | 0 <= i < 9 && scores[i] == BestScore(b, mark, strength)
  }

  /** AIMove: a cell chosen among the tied best cells. The program draws it
      with Math.random; here any candidate may be returned. */
  method AIMove(b: Board, mark: Mark, strength: int) returns (move: Index)
    requires exists i :: CellIsEmpty(b, i)
    ensures move in Candidates(b, mark, strength)
    ensures CellIsEmpty(b, move)
    ensures forall j :: CellIsEmpty(b, j) ==> CellScore(b, mark, strength, move) >= CellScore(b, mark, strength, j)
  {
    CandidatesAreBestEmptyCells(b, mark, strength);
    var c :| c in Candidates(b, mark, strength);
    move := c;
  }

  // ---------------------------------------------------------------------
  // The heuristic

  /** The count encoding classifies (own, opp) pairs by case, with one twist
      against the program's own comments: lines holding only the opponent's
      marks are subtracted with a sign that is itself negated, so they score
      with the same sign as lines holding only the mover's. */
  lemma LineScoreTable(own: nat, opp: nat, isMax: bool, threshold: int)
    requires own <= 3 && opp <= 3
    ensures var r := LineScore(own, opp, isMax, threshold);
      && ((own, opp) == (0, 1) || (own, opp) == (1, 0) ==>
            r == (if threshold <= 3 then (if isMax then 3 else -3) else 0))
      && ((own, opp) == (0, 2) || (own, opp) == (2, 0) ==>
            r == (if threshold <= 6 then (if isMax then 6 else -6) else 0))
      && ((own, opp) == (1, 1) || (own, opp) == (1, 2) || (own, opp) == (2, 1) ==>
            r == (if threshold <= 1 then -1 else 0))
      && ((own, opp) in {(0, 0), (0, 3), (3, 0)} || own + opp >= 4 ==> r == 0)
  {
  }

  /** Because of that twist the heuristic cannot tell the two marks apart:
      scoring for the mover or for the opponent gives the same value. */
  lemma {:induction false} HeuristicIgnoresWhoseMarks(b: Board, mark: Mark, isMax: bool, threshold: int, l: int)
    requires 0 <= l <= |Lines|
    decreases |Lines| - l
    ensures HeuristicFrom(b, mark, isMax, threshold, l) == HeuristicFrom(b, Other(mark), isMax, threshold, l)
  {
    if l < |Lines| {
      HeuristicIgnoresWhoseMarks(b, mark, isMax, threshold, l + 1);
      assert Other(Other(mark)) == mark;
      LineScoreSymmetric(CountMarks(b, mark, l), CountMarks(b, Other(mark), l), isMax, threshold);
    }
  }

  /** A line scores the same with the two counts swapped. */
  lemma LineScoreSymmetric(own: nat, opp: nat, isMax: bool, threshold: int)
    requires own <= 3 && opp <= 3
    ensures LineScore(own, opp, isMax, threshold) == LineScore(opp, own, isMax, threshold)
  {
  }

  // ---------------------------------------------------------------------
  // Minimax

  /** evalBoard scores the two marks oppositely as long as at most one of
      them holds a line; when both do, each scores +100, since the program
      checks the player's own line first. */
  lemma EvalBoardOpposes(b: Board, player: Mark)
    ensures EvalBoard(b, player) == 100 <==> HasWin(b, player)
    ensures EvalBoard(b, player) == -100 <==> !HasWin(b, player) && HasWin(b, Other(player))
    ensures EvalBoard(b, player) == 0 <==> !HasWin(b, O) && !HasWin(b, X)
    ensures !(HasWin(b, O) && HasWin(b, X)) ==> EvalBoard(b, Other(player)) == -EvalBoard(b, player)
  {
    assert Other(Other(player)) == player;
  }

  /** The judged mark never changes down the tree: it is the AI's own mark. */
  lemma PerspectiveIsStable(mark: Mark, isMax: bool)
    ensures Perspective(Other(mark), !isMax) == Perspective(mark, isMax)
    ensures Perspective(Other(mark), false) == mark
  {
  }

  /** A won or full position is scored at once: +/-(100 - 5 * depth) for a
      line of the judged mark / its opponent, 0 for a full board. */
  lemma MinimaxTerminal(b: Board, mark: Mark, isMax: bool, depth: int, cfg: Config)
    requires 0 <= depth < 20
    ensures var v := Minimax(b, mark, isMax, depth, cfg);
      var p := Perspective(mark, isMax);
      && (HasWin(b, p) ==> v == 100 - 5 * depth)
      && (!HasWin(b, p) && HasWin(b, Other(p)) ==> v == -(100 - 5 * depth))
      && (!HasWin(b, p) && !HasWin(b, Other(p)) && IsFull(b) ==> v == 0)
  {
  }

  /** The values of the children of `b`, one per cell; an occupied cell's
      entry is never read. */
  function ChildValues(b: Board, mark: Mark, isMax: bool, depth: int, cfg: Config): seq<int>
  {
    seq(9, j requires 0 <= j < 9 => if CellIsEmpty(b, j) then Child(b, mark, isMax, depth, cfg, j) else 0)
  }

  /** The cell loop of minimax over given child values. */
  function Fold(b: Board, kids: seq<int>, isMax: bool, i: int, best: int): int
    requires |kids| == 9 && 0 <= i <= 9
    decreases 9 - i
  {
    if i == 9 then best
    else if CellIsEmpty(b, i) then
      Fold(b, kids, isMax, i + 1, if isMax then Max(best, kids[i]) else Min(best, kids[i]))
    else Fold(b, kids, isMax, i + 1, best)
  }

  /** The cell loop over cells i..8 never moves `best` the wrong way, beats
      or matches every blank cell's value, and ends on `best` or on one of
      those values. */
  lemma {:induction false} FoldBounds(b: Board, kids: seq<int>, isMax: bool, i: int, best: int)
    requires |kids| == 9 && 0 <= i <= 9
    decreases 9 - i
    ensures var v := Fold(b, kids, isMax, i, best);
      && (isMax ==> v >= best)
      && (!isMax ==> v <= best)
      && (forall j: Index | i <= j && CellIsEmpty(b, j) :: if isMax then v >= kids[j] else v <= kids[j])
      && (v == best || exists j: Index | i <= j && CellIsEmpty(b, j) :: v == kids[j])
  {
    if i < 9 {
      if CellIsEmpty(b, i) {
        FoldBounds(b, kids, isMax, i + 1, if isMax then Max(best, kids[i]) else Min(best, kids[i]));
      } else {
        FoldBounds(b, kids, isMax, i + 1, best);
      }
    }
  }

  /** minimax's cell loop is the fold over its children's values. */
  lemma {:induction false} SearchIsFold(b: Board, mark: Mark, isMax: bool, depth: int, cfg: Config, i: int, best: int)
    requires 0 <= i <= 9
    decreases 9 - i
    ensures Search(b, mark, isMax, depth, cfg, i, best) == Fold(b, ChildValues(b, mark, isMax, depth, cfg), isMax, i, best)
  {
    if i < 9 {
      var kids := ChildValues(b, mark, isMax, depth, cfg);
      if CellIsEmpty(b, i) {
        var best' := if isMax then Max(best, kids[i]) else Min(best, kids[i]);
        SearchIsFold(b, mark, isMax, depth, cfg, i + 1, best');
      } else {
        SearchIsFold(b, mark, isMax, depth, cfg, i + 1, best);
      }
    }
  }

  /** The fold over cells i..8: it never moves `best` the wrong way, beats or
      matches every child, and ends on `best` or on some child's value. */
  lemma SearchFold(b: Board, mark: Mark, isMax: bool, depth: int, cfg: Config, i: int, best: int)
    requires 0 <= i <= 9
    ensures var v := Search(b, mark, isMax, depth, cfg, i, best);
      && (isMax ==> v >= best)
      && (!isMax ==> v <= best)
      && (forall j: Index | i <= j && CellIsEmpty(b, j) ::
            if isMax then v >= Child(b, mark, isMax, depth, cfg, j)
            else v <= Child(b, mark, isMax, depth, cfg, j))
      && (v == best || exists j: Index | i <= j && CellIsEmpty(b, j) :: v == Child(b, mark, isMax, depth, cfg, j))
  {
    var kids := ChildValues(b, mark, isMax, depth, cfg);
    SearchIsFold(b, mark, isMax, depth, cfg, i, best);
    FoldBounds(b, kids, isMax, i, best);
  }

  /** Below the cutoff, an undecided position is worth its best child for the
      side to move: the maximum over children when maximising, else the
      minimum. Needs the children to lie inside (-101, 101). */
  lemma SearchPicksExtremeChild(b: Board, mark: Mark, isMax: bool, depth: int, cfg: Config)
    requires 0 <= depth < cfg.maxDepth
    requires !IsFull(b)
    requires forall j: Index | CellIsEmpty(b, j) :: -101 < Child(b, mark, isMax, depth, cfg, j) < 101
    ensures var v := Search(b, mark, isMax, depth, cfg, 0, if isMax then -101 else 101);
      && (exists j: Index | CellIsEmpty(b, j) :: v == Child(b, mark, isMax, depth, cfg, j))
      && (forall j: Index | CellIsEmpty(b, j) ::
            if isMax then v >= Child(b, mark, isMax, depth, cfg, j)
            else v <= Child(b, mark, isMax, depth, cfg, j))
  {
    var best := if isMax then -101 else 101;
    SearchFold(b, mark, isMax, depth, cfg, 0, best);
    FullIffNoEmptyCell(b);
    var j: Index :| CellIsEmpty(b, j);
    assert -101 < Child(b, mark, isMax, depth, cfg, j) < 101;
  }

  /** For a real strength, a position with no line and a blank cell, above
      the strength's cutoff, is worth the best child for the side to move:
      the maximum over its children when maximising, else the minimum, and
      some child reaches it. */
  lemma MinimaxPicksExtremeChild(b: Board, mark: Mark, isMax: bool, depth: int, s: int)
    requires ValidStrength(s) && 0 <= depth < MaxDepths[s]
    requires !HasWin(b, O) && !HasWin(b, X) && !IsFull(b)
    ensures var v := Minimax(b, mark, isMax, depth, ConfigOf(s));
      && (exists j: Index | CellIsEmpty(b, j) :: v == Child(b, mark, isMax, depth, ConfigOf(s), j))
      && (forall j: Index | CellIsEmpty(b, j) ::
            if isMax then v >= Child(b, mark, isMax, depth, ConfigOf(s), j)
            else v <= Child(b, mark, isMax, depth, ConfigOf(s), j))
  {
    var cfg := ConfigOf(s);
    UndecidedMinimaxSearches(b, mark, isMax, depth, cfg);
    ChildrenInRange(b, mark, isMax, depth, cfg);
    SearchPicksExtremeChild(b, mark, isMax, depth, cfg);
  }

  /** With no line, a blank cell and depth below the cutoff, minimax is its
      cell loop from -101 (maximising) or 101 (minimising). */
  lemma UndecidedMinimaxSearches(b: Board, mark: Mark, isMax: bool, depth: int, cfg: Config)
    requires depth < cfg.maxDepth
    requires !HasWin(b, O) && !HasWin(b, X) && !IsFull(b)
    ensures Minimax(b, mark, isMax, depth, cfg) == Search(b, mark, isMax, depth, cfg, 0, if isMax then -101 else 101)
  {
    assert EvalBoard(b, Perspective(mark, isMax)) == 0;
  }

  /** Below a cutoff of at most 10, every child's value lies inside
      (-101, 101). */
  lemma ChildrenInRange(b: Board, mark: Mark, isMax: bool, depth: int, cfg: Config)
    requires 0 <= depth < cfg.maxDepth <= 10
    ensures forall j: Index | CellIsEmpty(b, j) :: -101 < Child(b, mark, isMax, depth, cfg, j) < 101
  {
    forall j: Index | CellIsEmpty(b, j)
      ensures -101 < Child(b, mark, isMax, depth, cfg, j) < 101
    {
      MinimaxBound(SetMarkAt(b, j, mark), Other(mark), !isMax, depth + 1, cfg);
    }
  }

  /** Minimax values shrink with depth: |value| <= 100 - 5 * depth for every
      depth the search reaches (cutoffs are at most 10, and the heuristic's
      48 stays below 50). */
  lemma {:induction false} MinimaxBound(b: Board, mark: Mark, isMax: bool, depth: int, cfg: Config)
    requires 0 <= depth <= 10 && cfg.maxDepth <= 10
    decreases EmptyCount(b)
    ensures -(100 - 5 * depth) <= Minimax(b, mark, isMax, depth, cfg) <= 100 - 5 * depth
  {
    var score := AdjustScore(EvalBoard(b, Perspective(mark, isMax)), depth);
    if score == 0 && !IsFull(b) && depth < cfg.maxDepth {
      forall j: Index | CellIsEmpty(b, j)
        ensures -(100 - 5 * (depth + 1)) <= Child(b, mark, isMax, depth, cfg, j) <= 100 - 5 * (depth + 1)
      {
        MarkingUsesOneEmptyCell(b, j, mark);
        MinimaxBound(SetMarkAt(b, j, mark), Other(mark), !isMax, depth + 1, cfg);
      }
      SearchPicksExtremeChild(b, mark, isMax, depth, cfg);
    }
  }

  /** With no line for the judged mark on the board, the position is worth at
      most the larger of the heuristic's 48 and a win one ply further down. */
  lemma MinimaxWithoutOwnLine(b: Board, mark: Mark, isMax: bool, depth: int, cfg: Config)
    requires 0 <= depth <= 10 && cfg.maxDepth <= 10
    requires !HasWin(b, Perspective(mark, isMax))
    ensures Minimax(b, mark, isMax, depth, cfg) <= Max(48, 100 - 5 * (depth + 1))
  {
    var score := AdjustScore(EvalBoard(b, Perspective(mark, isMax)), depth);
    if score == 0 && !IsFull(b) && depth < cfg.maxDepth {
      forall j: Index | CellIsEmpty(b, j)
        ensures -(100 - 5 * (depth + 1)) <= Child(b, mark, isMax, depth, cfg, j) <= 100 - 5 * (depth + 1)
      {
        MinimaxBound(SetMarkAt(b, j, mark), Other(mark), !isMax, depth + 1, cfg);
      }
      SearchPicksExtremeChild(b, mark, isMax, depth, cfg);
    }
  }

  /** Whether the search runs to the same value under two configurations. */
  lemma {:induction false} SearchCongruent(b: Board, mark: Mark, isMax: bool, depth: int, cfg: Config, cfg': Config, i: int, best: int)
    requires 0 <= i <= 9
    requires forall j: Index | i <= j && CellIsEmpty(b, j) ::
      Child(b, mark, isMax, depth, cfg, j) == Child(b, mark, isMax, depth, cfg', j)
    decreases 9 - i
    ensures Search(b, mark, isMax, depth, cfg, i, best) == Search(b, mark, isMax, depth, cfg', i, best)
  {
    if i < 9 {
      if CellIsEmpty(b, i) {
        var score := Child(b, mark, isMax, depth, cfg, i);
        SearchCongruent(b, mark, isMax, depth, cfg, cfg', i + 1, if isMax then Max(best, score) else Min(best, score));
      } else {
        SearchCongruent(b, mark, isMax, depth, cfg, cfg', i + 1, best);
      }
    }
  }

  /** At strength 4 the cutoff never bites and the heuristic is never
      consulted: every node below the AI's move has at least `depth` marks,
      so an unfinished one sits at depth 8 or less. The value is the same as
      under any deeper cutoff with any threshold. */
  lemma {:induction false} StrongestSearchIsExhaustive(b: Board, mark: Mark, isMax: bool, depth: int, cfg: Config)
    requires 0 <= depth && depth + EmptyCount(b) <= 9
    requires cfg.maxDepth >= MaxDepths[4]
    decreases EmptyCount(b)
    ensures Minimax(b, mark, isMax, depth, ConfigOf(4)) == Minimax(b, mark, isMax, depth, cfg)
  {
    var score := AdjustScore(EvalBoard(b, Perspective(mark, isMax)), depth);
    if score == 0 && !IsFull(b) {
      FullIffNoEmptyCell(b);
      assert depth < MaxDepths[4];
      forall j: Index | CellIsEmpty(b, j)
        ensures Child(b, mark, isMax, depth, ConfigOf(4), j) == Child(b, mark, isMax, depth, cfg, j)
      {
        MarkingUsesOneEmptyCell(b, j, mark);
        StrongestSearchIsExhaustive(SetMarkAt(b, j, mark), Other(mark), !isMax, depth + 1, cfg);
      }
      SearchCongruent(b, mark, isMax, depth, ConfigOf(4), cfg, 0, if isMax then -101 else 101);
    }
  }

  /** So at strength 4 every candidate move is scored by a full search of
      the game tree below it: no cutoff and no heuristic. */
  lemma StrongestScoresAreExhaustive(b: Board, mark: Mark, i: Index, cfg: Config)
    requires CellIsEmpty(b, i)
    requires cfg.maxDepth >= MaxDepths[4]
    ensures CellScore(b, mark, 4, i) == Minimax(SetMarkAt(b, i, mark), Other(mark), false, 1, cfg)
  {
    MarkingUsesOneEmptyCell(b, i, mark);
    StrongestSearchIsExhaustive(SetMarkAt(b, i, mark), Other(mark), false, 1, cfg);
  }

  // ---------------------------------------------------------------------
  // Move selection

  /** The fold behind bestScore: never below `best`, at least every searched
      blank cell's score, and equal to `best` or to one of those scores. */
  lemma {:induction false} BestFromFold(b: Board, scores: seq<int>, searches: bool, i: int, best: int)
    requires |scores| == 9 && 0 <= i <= 9
    decreases 9 - i
    ensures var v := BestFrom(b, scores, searches, i, best);
      && v >= best
      && (searches ==> forall j: Index | i <= j && CellIsEmpty(b, j) :: v >= scores[j])
      && (v == best || exists j: Index | i <= j && CellIsEmpty(b, j) :: v == scores[j])
      && (!searches ==> v == best)
  {
    if i < 9 {
      if CellIsEmpty(b, i) && searches {
        BestFromFold(b, scores, searches, i + 1, Max(best, scores[i]));
      } else {
        BestFromFold(b, scores, searches, i + 1, best);
      }
    }
  }

  /** A blank cell scoring at least as well as every blank cell. */
  ghost predicate IsBestBlank(b: Board, mark: Mark, strength: int, i: int)
  {
    CellIsEmpty(b, i)
    && forall j | CellIsEmpty(b, j) :: CellScore(b, mark, strength, i) >= CellScore(b, mark, strength, j)
  }

  /** The AI only ever picks a blank cell, always has one to pick when the
      board has room, and its candidates are exactly the blank cells that
      score at least as well as every other blank cell. */
  lemma CandidatesAreBestEmptyCells(b: Board, mark: Mark, strength: int)
    ensures forall c | c in Candidates(b, mark, strength) :: CellIsEmpty(b, c)
    ensures (exists i :: CellIsEmpty(b, i)) ==> Candidates(b, mark, strength) != {}
    ensures forall c, j | c in Candidates(b, mark, strength) && CellIsEmpty(b, j) ::
      CellScore(b, mark, strength, c) >= CellScore(b, mark, strength, j)
    ensures forall i | IsBestBlank(b, mark, strength, i) :: i in Candidates(b, mark, strength)
  {
    var best := BestScore(b, mark, strength);
    var scores := Scores(b, mark, strength);
    assert forall j: Index :: scores[j] == CellScore(b, mark, strength, j);
    BestFromFold(b, scores, Searches(strength), 0, -101);
    if i :| CellIsEmpty(b, i) {
      if Searches(strength) {
        assert best >= CellScore(b, mark, strength, i) >= -95;
        var j: Index :| CellIsEmpty(b, j) && best == CellScore(b, mark, strength, j);
        assert j in Candidates(b, mark, strength);
      } else {
        assert i in Candidates(b, mark, strength);
      }
    }
    forall i | IsBestBlank(b, mark, strength, i)
      ensures i in Candidates(b, mark, strength)
    {
      if Searches(strength) {
        assert best >= CellScore(b, mark, strength, i) >= -95;
        var j: Index :| CellIsEmpty(b, j) && best == CellScore(b, mark, strength, j);
      }
      assert scores[i] == best;
    }
  }

  /** A strength that does not search (strength 0, or one outside the table)
      treats every blank cell alike: all of them are candidates. */
  lemma WeakestPicksAnyEmptyCell(b: Board, mark: Mark, strength: int)
    requires !Searches(strength)
    ensures Candidates(b, mark, strength) == set i | 0 <= i < 9 && CellIsEmpty(b, i)
  {
    BestFromFold(b, Scores(b, mark, strength), Searches(strength), 0, -101);
  }

  /** Any searching strength takes an immediate win when one is on offer:
      the winning cell scores 95, and every other cell at most 90. */
  lemma TakesImmediateWin(b: Board, mark: Mark, strength: int)
    requires Searches(strength)
    requires exists i :: CellIsEmpty(b, i) && HasWin(SetMarkAt(b, i, mark), mark)
    ensures forall c | c in Candidates(b, mark, strength) :: HasWin(SetMarkAt(b, c, mark), mark)
  {
    var w: Index :| CellIsEmpty(b, w) && HasWin(SetMarkAt(b, w, mark), mark);
    var cfg := ConfigOf(strength);
    PerspectiveIsStable(mark, true);
    MinimaxTerminal(SetMarkAt(b, w, mark), Other(mark), false, 1, cfg);
    assert CellScore(b, mark, strength, w) == 95;
    CandidatesAreBestEmptyCells(b, mark, strength);
    forall c | c in Candidates(b, mark, strength)
      ensures HasWin(SetMarkAt(b, c, mark), mark)
    {
      if !HasWin(SetMarkAt(b, c, mark), mark) {
        MinimaxWithoutOwnLine(SetMarkAt(b, c, mark), Other(mark), false, 1, cfg);
        assert false;
      }
    }
  }

  /** When exactly one blank cell completes a line for the mover, a searching
      strength has that cell as its only candidate. */
  lemma TakesTheOnlyWinningCell(b: Board, mark: Mark, strength: int, w: Index)
    requires Searches(strength)
    requires CellIsEmpty(b, w) && HasWin(SetMarkAt(b, w, mark), mark)
    requires forall c: Index | c != w && CellIsEmpty(b, c) :: !HasWin(SetMarkAt(b, c, mark), mark)
    ensures Candidates(b, mark, strength) == {w}
  {
    TakesImmediateWin(b, mark, strength);
    CandidatesAreBestEmptyCells(b, mark, strength);
    var c :| c in Candidates(b, mark, strength);
  }

  /** With O on 0 and 1 and X on 3 and 4, O to move, every searching
      strength plays cell 2 and nothing else. */
  lemma CompletesTopRow(strength: int)
    requires Searches(strength)
    ensures Candidates([O, O, Empty, X, X, Empty, Empty, Empty, Empty], O, strength) == {2}
  {
    var b: Board := [O, O, Empty, X, X, Empty, Empty, Empty, Empty];
    assert CountMarks(SetMarkAt(b, 2, O), O, 0) == 3;
    forall c: Index | c != 2 && CellIsEmpty(b, c)
      ensures !HasWin(SetMarkAt(b, c, O), O)
    {
      var b' := SetMarkAt(b, c, O);
      assert b'[2] == Empty && b'[3] == X && b'[4] == X;
      assert b'[6] != O || b'[7] != O;
      forall l | 0 <= l < |Lines|
        ensures CountMarks(b', O, l) != 3
      {
        if l == 0 || l == 5 {
          assert b'[Lines[l][0]] == Empty || b'[Lines[l][2]] == Empty;
        } else if l == 7 {
          assert b'[Lines[l][0]] != O || b'[Lines[l][1]] != O;
        } else {
          assert b'[Lines[l][1]] == X;
        }
      }
    }
    TakesTheOnlyWinningCell(b, O, strength, 2);
  }
}

=== FILE: board.dfy ===
/** The 3x3 tic-tac-toe board: nine cells, eight fixed win lines, and the
    reads and writes the game and the search engines perform on it. */
module Board {

  /** What a cell holds: blank (' ' in the program), 'O' or 'X'. */
  datatype Cell = Empty | O | X

  /** A mark a player places. */
  type Mark = c: Cell | c != Empty witness O

  /** A cell position, 0 to 8 in row-major order. */
  type Index = i: int | 0 <= i < 9

  /** Which of the two players is to move: 0 holds 'O', 1 holds 'X'. Both
      versions of the game keep the turn as this 0/1 number. */
  type Turn = t: int | 0 <= t <= 1

  /** The board is always exactly nine cells. */
  type Board = b: seq<Cell> | |b| == 9
    witness [Empty, Empty, Empty, Empty, Empty, Empty, Empty, Empty, Empty]

  /** A win line is three cell positions. */
  type Line = s: seq<Index> | |s| == 3 witness [0, 1, 2]

  /** The eight win lines, in the program's order. */
  const Lines: seq<Line> :=
    [[0, 1, 2], [0, 4, 8], [0, 3, 6], [1, 4, 7], [2, 4, 6], [2, 5, 8], [3, 4, 5], [6, 7, 8]]

  /** The number of win lines. */
  function NumLines(): (n: nat)
    ensures n == |Lines|
    ensures n == 8
  {
    |Lines|
  }

  /** The larger of two scores. */
  function Max(a: int, b: int): int
  {
    if a >= b then a else b
  }

  /** The smaller of two scores. */
  function Min(a: int, b: int): int
  {
    if a <= b then a else b
  }

  /** The opposing mark: O and X swap. */
  function Other(m: Mark): (r: Mark)
    ensures r != m
  {
    if m == O then X else O
  }

  /** The board a new game starts from. */
  function NewBoard(): (b: Board)
    ensures forall i: Index :: b[i] == Empty
  {
    [Empty, Empty, Empty, Empty, Empty, Empty, Empty, Empty, Empty]
  }

  /** How many cells are blank; the measure every search recursion decreases. */
  function EmptyCount(b: Board): nat
  {
    multiset(b)[Empty]
  }

  function MarkAt(b: Board, i: Index): Cell
  {
    b[i]
  }

  /** Overwrites one cell, whatever it held before. */
  function SetMarkAt(b: Board, i: Index, c: Cell): (r: Board)
    ensures MarkAt(r, i) == c
    ensures forall j: Index :: j != i ==> MarkAt(r, j) == MarkAt(b, j)
  {
    b[i := c]
  }

  /** Whether cell i is blank. An index outside the board reads as undefined
      in the program, which is not equal to ' ', so it is not empty. */
  predicate CellIsEmpty(b: Board, i: int)
  {
    0 <= i < 9 && b[i] == Empty
  }

  /** The positions k >= i of `cells` whose cell holds c. */
  function Matching(b: Board, c: Cell, cells: seq<Index>, i: int): set<int>
  {
    set k | i <= k < |cells| && 0 <= k && b[cells[k]] == c
  }

  /** Position i joins the matching positions after it exactly when its
      cell holds c. */
  lemma MatchingSplit(b: Board, c: Cell, cells: seq<Index>, i: int)
    requires 0 <= i < |cells|
    ensures |Matching(b, c, cells, i)| == (if b[cells[i]] == c then 1 else 0) + |Matching(b, c, cells, i + 1)|
  {
    var later := Matching(b, c, cells, i + 1);
    assert Matching(b, c, cells, i) == if b[cells[i]] == c then later + {i} else later;
  }

  /** The number of cells among cells[i..] that hold c, counted from the
      front as countMarks' loop does. */
  function CountFrom(b: Board, c: Cell, cells: seq<Index>, i: int): (n: nat)
    requires 0 <= i <= |cells|
    decreases |cells| - i
    ensures n == |Matching(b, c, cells, i)|
    ensures n <= |cells| - i
    ensures n == |cells| - i <==> forall k | i <= k < |cells| :: b[cells[k]] == c
    ensures n == 0 <==> forall k | i <= k < |cells| :: b[cells[k]] != c
  {
    if i == |cells| then
      assert Matching(b, c, cells, i) == {};
      0
    else
      MatchingSplit(b, c, cells, i);
      (if b[cells[i]] == c then 1 else 0) + CountFrom(b, c, cells, i + 1)
  }

  /** How many cells of win line `line` hold `c`. */
  function CountMarks(b: Board, c: Cell, line: int): (n: nat)
    requires 0 <= line < |Lines|
    ensures n == |set k | 0 <= k < 3 && b[Lines[line][k]] == c|
    ensures n <= 3
    ensures n == 3 <==> LineFilledWith(b, c, line)
    ensures n == 0 <==> forall k | 0 <= k < 3 :: b[Lines[line][k]] != c
  {
    assert Matching(b, c, Lines[line], 0) == set k | 0 <= k < 3 && b[Lines[line][k]] == c;
    CountFrom(b, c, Lines[line], 0)
  }

  /** All three cells of line `line` hold `c`. */
  predicate LineFilledWith(b: Board, c: Cell, line: int)
    requires 0 <= line < |Lines|
  {
    forall k | 0 <= k < 3 :: b[Lines[line][k]] == c
  }

  /** checkForWin: some line counts three of `c`. */
  predicate HasWin(b: Board, c: Cell)
  {
    exists l | 0 <= l < |Lines| :: CountMarks(b, c, l) == 3
  }

  /** checkForComplete: no cell is blank. */
  predicate IsFull(b: Board)
  {
    forall i | 0 <= i < 9 :: b[i] != Empty
  }

  /** Every win line is three distinct positions. */
  lemma LinesAreDistinctTriples()
    ensures NumLines() == 8
    ensures forall l, k, k' | 0 <= l < |Lines| && 0 <= k < k' < 3 :: Lines[l][k] != Lines[l][k']
  {
  }

  /** A new board has no mark anywhere: not full and no win for either mark. */
  lemma NewBoardIsOpen()
    ensures EmptyCount(NewBoard()) == 9
    ensures !IsFull(NewBoard())
    ensures !HasWin(NewBoard(), O) && !HasWin(NewBoard(), X)
  {
    var b := NewBoard();
    assert b[0] == Empty;
    assert forall l | 0 <= l < |Lines| :: b[Lines[l][0]] == Empty;
  }

  /** checkForWin holds exactly when some line is entirely `c`. */
  lemma WinIffFilledLine(b: Board, c: Cell)
    ensures HasWin(b, c) <==> exists l | 0 <= l < |Lines| :: LineFilledWith(b, c, l)
  {
    if l :| 0 <= l < |Lines| && LineFilledWith(b, c, l) {
      assert CountMarks(b, c, l) == 3;
    }
  }

  /** checkForComplete holds exactly when no cell is left blank. */
  lemma FullIffNoEmptyCell(b: Board)
    ensures IsFull(b) <==> EmptyCount(b) == 0
    ensures IsFull(b) <==> forall i :: !CellIsEmpty(b, i)
  {
    if IsFull(b) {
      assert Empty !in b;
    } else {
      var i :| 0 <= i < 9 && b[i] == Empty;
      assert b[i] in b;
      assert CellIsEmpty(b, i);
    }
  }

  /** Marking a blank cell uses up exactly one blank cell. */
  lemma MarkingUsesOneEmptyCell(b: Board, i: Index, m: Mark)
    requires CellIsEmpty(b, i)
    ensures EmptyCount(SetMarkAt(b, i, m)) == EmptyCount(b) - 1
    ensures multiset(SetMarkAt(b, i, m))[m] == multiset(b)[m] + 1
    ensures multiset(SetMarkAt(b, i, m))[Other(m)] == multiset(b)[Other(m)]
  {
  }

  /** Writing a mark into cell i fills that cell and no other: the blank
      cells afterwards are the blank cells before, minus i. */
  lemma MarkingFillsOnlyThatCell(b: Board, i: Index, m: Mark)
    ensures forall j :: CellIsEmpty(SetMarkAt(b, i, m), j) <==> j != i && CellIsEmpty(b, j)
  {
    forall j | 0 <= j < 9 && j != i
      ensures CellIsEmpty(SetMarkAt(b, i, m), j) <==> CellIsEmpty(b, j)
    {
      assert MarkAt(SetMarkAt(b, i, m), j) == MarkAt(b, j);
    }
  }

  /** The search's place-then-retract discipline: marking a blank cell and
      blanking it again gives back the board it started from. */
  lemma RetractRestores(b: Board, i: Index, m: Mark)
    requires CellIsEmpty(b, i)
    ensures SetMarkAt(SetMarkAt(b, i, m), i, Empty) == b
  {
  }

  /** Placing `m` cannot complete a line for any other symbol: such a line
      was complete before the move. */
  lemma PlacingCannotHelpOthers(b: Board, i: Index, m: Mark, c: Cell)
    requires c != m
    requires HasWin(SetMarkAt(b, i, m), c)
    ensures HasWin(b, c)
  {
    var b' := SetMarkAt(b, i, m);
    var l :| 0 <= l < |Lines| && CountMarks(b', c, l) == 3;
    assert LineFilledWith(b', c, l);
    forall k | 0 <= k < 3
      ensures b[Lines[l][k]] == c
    {
      assert MarkAt(b', Lines[l][k]) == c;
    }
    assert CountMarks(b, c, l) == 3;
  }
}

=== FILE: game.dfy ===
/** A game between two players, each human or computer: O always moves
    first, every move flips the turn, and each move reports a won, drawn or
    continuing game. */
module Game {
  import opened Board
  import AiPlayer

  /** A player either waits for outside input or is a computer player of some
      strength (the program does not check the strength's range). */
  datatype PlayerKind = Human | Ai(strength: int)

  datatype Player = Player(mark: Mark, kind: PlayerKind)

  type Players = s: seq<Player> | |s| == 2 witness [Player(O, Human), Player(X, Human)]

  datatype Game = Game(board: Board, players: Players, turn: Turn)

  /** The outcome tags: 'P' (a human must supply the move), 'W', 'D', 'C'. */
  datatype Tag = AwaitingInput | Won | Drawn | Continue

  /** A move report: the board snapshot, the tag, and the mark it names (the
      winner, the next mover, or blank). */
  datatype Outcome = Outcome(board: Board, tag: Tag, mark: Cell)

  datatype Step = Step(game: Game, outcome: Outcome)

  /** Players are set up as O for the first slot and X for the second. */
  predicate WellFormed(g: Game)
  {
    g.players[0].mark == O && g.players[1].mark == X
  }

  /** Whoever is to move is told by the marks on the board: O has placed
      `turn` more marks than X. */
  predicate Balanced(g: Game)
  {
    multiset(g.board)[O] == multiset(g.board)[X] + g.turn
  }

  /** Type 'A' makes a computer player with the given strength; any other
      type makes a plain player. */
  function MakePlayer(kind: char, strength: int, mark: Mark): (p: Player)
    ensures p.mark == mark
    ensures p.kind.Ai? <==> kind == 'A'
    ensures p.kind.Ai? ==> p.kind.strength == strength
  {
    Player(mark, if kind == 'A' then Ai(strength) else Human)
  }

  /** The constructor: a blank board, O for player one, X for player two,
      player one to move. */
  function NewGame(type1: char, strength1: int, type2: char, strength2: int): (g: Game)
    ensures WellFormed(g) && Balanced(g)
    ensures g.turn == 0 && MarkForCurrentPlayer(g) == O
    ensures forall i: Index :: IsValidMove(g, i)
    ensures g.players[0] == MakePlayer(type1, strength1, O)
    ensures g.players[1] == MakePlayer(type2, strength2, X)
  {
    NewBoardIsOpen();
    Game(NewBoard(), [MakePlayer(type1, strength1, O), MakePlayer(type2, strength2, X)], 0)
  }

  function MarkForCurrentPlayer(g: Game): Mark
  {
    g.players[g.turn].mark
  }

  function OtherPlayer(t: Turn): (r: Turn)
    ensures r != t
  {
    1 - t
  }

  /** isValidMove: the cell is blank; an index off the board is never valid. */
  predicate IsValidMove(g: Game, i: int)
  {
    CellIsEmpty(g.board, i)
  }

  /** processMove: places the mover's mark (without checking the cell or
      whether the game is over), passes the turn, then reports a win for the
      mover first, else a draw on a full board, else the next mover. */
  function ProcessMove(g: Game, i: Index): (s: Step)
    ensures forall j: Index :: j != i ==> MarkAt(s.game.board, j) == MarkAt(g.board, j)
    ensures MarkAt(s.game.board, i) == MarkForCurrentPlayer(g)
    ensures s.game.turn == OtherPlayer(g.turn) && s.game.players == g.players
    ensures s.outcome.board == s.game.board
    ensures s.outcome.tag != AwaitingInput
    ensures s.outcome.tag == Won <==> HasWin(s.game.board, MarkForCurrentPlayer(g))
    ensures s.outcome.tag == Drawn <==> !HasWin(s.game.board, MarkForCurrentPlayer(g)) && IsFull(s.game.board)
    ensures s.outcome.tag == Won ==> s.outcome.mark == MarkForCurrentPlayer(g)
    ensures s.outcome.tag == Drawn ==> s.outcome.mark == Empty
    ensures s.outcome.tag == Continue ==> s.outcome.mark == MarkForCurrentPlayer(s.game)
  {
    var mover := MarkForCurrentPlayer(g);
    var board := SetMarkAt(g.board, i, mover);
    var next := Game(board, g.players, OtherPlayer(g.turn));
    var outcome :=
      if HasWin(board, mover) then Outcome(board, Won, mover)
      else if IsFull(board) then Outcome(board, Drawn, Empty)
      else Outcome(board, Continue, MarkForCurrentPlayer(next));
    Step(next, outcome)
  }

  /** getMove: a computer player picks one of its engine's candidate cells
      and the move is processed; a human turn reports 'P' and changes nothing. */
  method GetMove(g: Game) returns (s: Step)
    requires g.players[g.turn].kind.Ai? ==> exists i :: CellIsEmpty(g.board, i)
    ensures g.players[g.turn].kind.Human? ==> s == Step(g, Outcome(g.board, AwaitingInput, Empty))
    ensures g.players[g.turn].kind.Ai? ==>
      exists m: Index :: m in AiPlayer.Candidates(g.board, MarkForCurrentPlayer(g), g.players[g.turn].kind.strength)
        && IsValidMove(g, m) && s == ProcessMove(g, m)
    ensures WellFormed(g) && Balanced(g) ==> WellFormed(s.game) && Balanced(s.game)
  {
    var player := g.players[g.turn];
    if player.kind.Ai? {
      var m := AiPlayer.AIMove(g.board, player.mark, player.kind.strength);
      if WellFormed(g) && Balanced(g) {
        ValidMoveKeepsBalance(g, m);
      }
      s := ProcessMove(g, m);
    } else {
      s := Step(g, Outcome(g.board, AwaitingInput, Empty));
    }
  }

  /** A move into a blank cell keeps the count of O minus the count of X
      equal to the turn index. */
  lemma ValidMoveKeepsBalance(g: Game, i: Index)
    requires WellFormed(g) && Balanced(g) && IsValidMove(g, i)
    ensures WellFormed(ProcessMove(g, i).game) && Balanced(ProcessMove(g, i).game)
  {
    var mover := MarkForCurrentPlayer(g);
    MarkingUsesOneEmptyCell(g.board, i, mover);
    assert ProcessMove(g, i).game.board == SetMarkAt(g.board, i, mover);
  }

  /** A processed move uses up its cell: afterwards that cell is no valid
      move, and every other cell is valid exactly when it was before. */
  lemma MoveUsesUpCell(g: Game, i: Index)
    ensures !IsValidMove(ProcessMove(g, i).game, i)
    ensures forall j | j != i :: IsValidMove(ProcessMove(g, i).game, j) <==> IsValidMove(g, j)
  {
    MarkingFillsOnlyThatCell(g.board, i, MarkForCurrentPlayer(g));
    assert ProcessMove(g, i).game.board == SetMarkAt(g.board, i, MarkForCurrentPlayer(g));
  }

  /** With O in the first slot and X in the second, the mark to move
      alternates: each processed move hands the turn to the other mark. */
  lemma MarksAlternate(g: Game, i: Index)
    requires WellFormed(g)
    ensures MarkForCurrentPlayer(ProcessMove(g, i).game) == Other(MarkForCurrentPlayer(g))
    ensures WellFormed(ProcessMove(g, i).game)
  {
  }

  /** In a balanced game the mark to move is read off the board: O when both
      have placed equally many marks, X when O is one ahead. */
  lemma TurnFollowsBoard(g: Game)
    requires WellFormed(g) && Balanced(g)
    ensures MarkForCurrentPlayer(g) == (if multiset(g.board)[O] == multiset(g.board)[X] then O else X)
  {
  }

  /** A game reported as continuing still has a blank cell, so the next
      computer player always has a move to make. */
  lemma ContinuingGameHasRoom(g: Game, i: Index)
    requires ProcessMove(g, i).outcome.tag == Continue
    ensures exists j :: CellIsEmpty(ProcessMove(g, i).game.board, j)
  {
    FullIffNoEmptyCell(ProcessMove(g, i).game.board);
  }

  /** In a game where nobody had a line, a valid move cannot hand the
      opponent one: any line the move completes is the mover's. */
  lemma OnlyTheMoverCanWin(g: Game, i: Index)
    requires !HasWin(g.board, O) && !HasWin(g.board, X)
    ensures !HasWin(ProcessMove(g, i).game.board, Other(MarkForCurrentPlayer(g)))
  {
    var mover := MarkForCurrentPlayer(g);
    if HasWin(ProcessMove(g, i).game.board, Other(mover)) {
      assert ProcessMove(g, i).game.board == SetMarkAt(g.board, i, mover);
      PlacingCannotHelpOthers(g.board, i, mover, Other(mover));
      assert false;
    }
  }
}

=== FILE: legacy.dfy ===
/** The older single-file version of the game: no search. Each blank cell is
    scored by the lines through it, a weak player ignores scores at or below
    its threshold, and a move counter declares the draw. Only the game logic
    is modelled; drawing, form reads and control toggling are not. */
module Legacy {
  import opened Board

  /** The score at or below which a strength treats a cell as worthless,
      per strength 0..4. */
  const AIThresholds: seq<int> := [100, 50, 10, 3, 0]

  /** The marks of player 0 and player 1. */
  const PlayerChars: seq<Mark> := [O, X]

  /** Who supplies a player's moves: 'H' or 'C'. */
  datatype Controller = Human | Computer

  type Controllers = s: seq<Controller> | |s| == 2 witness [Human, Human]

  type Strengths = s: seq<int> | |s| == 2 witness [0, 0]

  /** The game object's fields: board, player to move, moves counted so far,
      and each player's controller and strength. */
  datatype State = State(board: Board, turn: Turn, moves: int, controllers: Controllers, strengths: Strengths)

  /** How a processed move ends: a winner, a draw, or play on. */
  datatype Outcome = Continue | Won(winner: Mark) | Drawn

  datatype Step = Step(state: State, outcome: Outcome)

  /** A parsed number, or nothing when the text did not parse. */
  datatype Option = None | Some(value: int)

  /** What `play` makes of the typed cell number. */
  datatype PlayResult = ValueWarning | PositionWarning | Played(step: Step)

  /** The counter has counted every mark on the board. */
  predicate Counted(st: State)
  {
    st.moves + EmptyCount(st.board) == 9
  }

  /** resetGame, minus the form reads: the controllers and strengths it reads
      are parameters. */
  function Reset(controllers: Controllers, strengths: Strengths): (st: State)
    ensures st.board == NewBoard() && st.moves == 0 && st.turn == 0
    ensures st.controllers == controllers && st.strengths == strengths
    ensures Counted(st)
    ensures !CheckForWin(st.board) && !IsFull(st.board)
  {
    NewBoardIsOpen();
    WinByEitherPlayer(NewBoard());
    State(NewBoard(), 0, 0, controllers, strengths)
  }

  function OtherPlayer(st: State): (t: Turn)
    ensures t != st.turn
  {
    1 - st.turn
  }

  /** countMarks: how many cells of `line` hold player `piece`'s mark. */
  function CountMarksFor(b: Board, piece: Turn, line: int): nat
    requires 0 <= line < |Lines|
  {
    CountMarks(b, PlayerChars[piece], line)
  }

  /** checkForWin: some line is three of player 0's or of player 1's mark. */
  predicate CheckForWin(b: Board)
  {
    exists l | 0 <= l < |Lines| :: CountMarksFor(b, 0, l) == 3 || CountMarksFor(b, 1, l) == 3
  }

  /** What one line through a blank cell adds to its score, given the
      mover's and the opponent's marks on it. */
  function LineBonus(own: nat, opp: nat): (r: nat)
    ensures r <= 20
  {
    if own == 0 then
      if opp == 0 then 1 else if opp == 2 then 10 else 1
    else if opp == 0 then
      if own == 2 then 20 else 2
    else 0
  }

  /** The number of lines j..7 through cell i. */
  function LinesThrough(i: Index, j: int): (n: nat)
    requires 0 <= j <= |Lines|
    decreases |Lines| - j
    ensures n <= |Lines| - j
  {
    if j == |Lines| then 0
    else (if i in Lines[j] then 1 else 0) + LinesThrough(i, j + 1)
  }

  /** The raw score of cell i from lines j..7, for player `turn`. */
  function RawFrom(b: Board, turn: Turn, i: Index, j: int): (r: nat)
    requires 0 <= j <= |Lines|
    decreases |Lines| - j
    ensures r <= 20 * LinesThrough(i, j)
  {
    if j == |Lines| then 0
    else
      (if i in Lines[j] then LineBonus(CountMarksFor(b, turn, j), CountMarksFor(b, 1 - turn, j)) else 0)
      + RawFrom(b, turn, i, j + 1)
  }

  /** The threshold step: a score at or below the strength's threshold
      becomes 0. For a strength outside 0..4 the program compares with
      `undefined`, which is never true, so the score is kept. */
  function Thresholded(raw: int, strength: int): (r: int)
    ensures 0 <= strength < |AIThresholds| ==> r == 0 || r > AIThresholds[strength]
    ensures r == 0 || r == raw
    ensures 0 <= strength < |AIThresholds| && raw > AIThresholds[strength] ==> r == raw
    ensures 0 <= strength < |AIThresholds| && raw <= AIThresholds[strength] ==> r == 0
    ensures !(0 <= strength < |AIThresholds|) ==> r == raw
  {
    if 0 <= strength < |AIThresholds| && raw <= AIThresholds[strength] then 0 else raw
  }

  /** The score AIMove gives cell i: -1 when occupied, else the thresholded
      raw score for the player to move. */
  function Score(st: State, i: Index): (r: int)
    ensures st.board[i] != Empty ==> r == -1
    ensures st.board[i] == Empty ==> 0 <= r <= 80
  {
    if st.board[i] != Empty then -1
    else
      RawScoreBound(st.board, st.turn, i);
      Thresholded(RawFrom(st.board, st.turn, i, 0), st.strengths[st.turn])
  }

  /** The scores array AIMove fills, one entry per cell. */
  function Scores(st: State): seq<int>
  {
    seq(9, i requires 0 <= i < 9 => Score(st, i))
  }

  /** maxScore over cells i..8, starting from 0 and fed only blank cells. */
  function MaxFrom(b: Board, scores: seq<int>, i: int, best: int): int
    requires |scores| == 9 && 0 <= i <= 9
    decreases 9 - i
  {
    if i == 9 then best
    else if b[i] == Empty then MaxFrom(b, scores, i + 1, Max(best, scores[i]))
    else MaxFrom(b, scores, i + 1, best)
  }

  function MaxScore(st: State): int
  {
    MaxFrom(st.board, Scores(st), 0, 0)
  }

  /** possibleMoves: every cell scoring the maximum. */
  function Candidates(st: State): set<int>
  {
    set i: int | 0 <= i < 9 && Scores(st)[i] == MaxScore(st)
  }

  /** AIMove's choice: any cell among the candidates (the program draws it
      with Math.random). */
  method AIMove(st: State) returns (move: Index)
    requires exists i :: CellIsEmpty(st.board, i)
    ensures move in Candidates(st) && CellIsEmpty(st.board, move)
    ensures forall j: Index :: CellIsEmpty(st.board, j) ==> Score(st, move) >= Score(st, j)
  {
    CandidatesAreBestEmptyCells(st);
    var c :| c in Candidates(st);
    move := c;
  }

  /** processMove, minus the redraw: the mover's mark goes in, the turn
      passes, then a win is checked (and reported for the player who is not
      now to move), and only otherwise is the counter advanced and compared
      with 9. */
  function ProcessMove(st: State, i: Index): (s: Step)
    ensures s.state.board == SetMarkAt(st.board, i, PlayerChars[st.turn])
    ensures s.state.turn == OtherPlayer(st)
    ensures s.state.controllers == st.controllers && s.state.strengths == st.strengths
    ensures s.outcome.Won? <==> CheckForWin(s.state.board)
    ensures s.outcome.Won? ==> s.outcome.winner == PlayerChars[st.turn] && s.state.moves == st.moves
    ensures !s.outcome.Won? ==> s.state.moves == st.moves + 1
    ensures s.outcome.Drawn? <==> !CheckForWin(s.state.board) && st.moves + 1 == 9
  {
    var board := SetMarkAt(st.board, i, PlayerChars[st.turn]);
    var next := st.(board := board, turn := OtherPlayer(st));
    if CheckForWin(board) then Step(next, Won(PlayerChars[OtherPlayer(next)]))
    else
      var counted := next.(moves := st.moves + 1);
      Step(counted, if counted.moves == 9 then Drawn else Continue)
  }

  /** play, minus the form: `input` is parseInt of the typed text, None when
      it is not a number. Cell numbers 1..9 are accepted when that cell is
      blank. */
  function Play(st: State, input: Option): (r: PlayResult)
    ensures r.Played? <==> input.Some? && 1 <= input.value <= 9 && CellIsEmpty(st.board, input.value - 1)
    ensures r.ValueWarning? <==> input.None? || input.value < 1 || input.value > 9
    ensures r.Played? ==> r.step == ProcessMove(st, input.value - 1)
  {
    if input.None? || input.value < 1 || input.value > 9 then ValueWarning
    else if st.board[input.value - 1] != Empty then PositionWarning
    else Played(ProcessMove(st, input.value - 1))
  }

  /** The step reached by processing `moves` in order from `st`, each one
      only while play continues. */
  function Replay(st: State, moves: seq<Index>): Step
    decreases |moves|
  {
    if moves == [] then Step(st, Continue)
    else
      var prev := Replay(st, moves[..|moves| - 1]);
      if prev.outcome.Continue? then ProcessMove(prev.state, moves[|moves| - 1]) else prev
  }

  /** Every move of `moves` was made, while play continued, by a computer
      player, in one of its engine's candidate cells. */
  predicate ComputerChose(st: State, moves: seq<Index>)
  {
    forall k | 0 <= k < |moves| ::
      var at := Replay(st, moves[..k]);
      && at.outcome.Continue?
      && at.state.controllers[at.state.turn] == Computer
      && moves[k] in Candidates(at.state)
  }

  /** getMove and the chain it starts: while a computer player is to move it
      moves, and processMove asks for the next move, until the game ends or a
      human is to move. `moves` lists the cells the computer players took.
      Each computer move fills a blank cell, so the chain stops. */
  method GetMove(st: State) returns (s: Step, moves: seq<Index>)
    requires Counted(st) && !CheckForWin(st.board) && !IsFull(st.board)
    ensures st.controllers[st.turn] == Human ==> s == Step(st, Continue) && moves == []
    ensures s == Replay(st, moves) && ComputerChose(st, moves)
    ensures forall j: Index :: st.board[j] != Empty ==> s.state.board[j] == st.board[j]
    ensures s.state.controllers == st.controllers && s.state.strengths == st.strengths
    ensures s.outcome.Continue? ==>
      s.state.controllers[s.state.turn] == Human && Counted(s.state) && !IsFull(s.state.board)
    ensures s.outcome.Drawn? ==> IsFull(s.state.board) && !CheckForWin(s.state.board)
    ensures s.outcome.Won? ==> HasWin(s.state.board, s.outcome.winner)
  {
    var cur := st;
    moves := [];
    while cur.controllers[cur.turn] == Computer
      invariant cur.controllers == st.controllers && cur.strengths == st.strengths
      invariant Counted(cur) && !CheckForWin(cur.board) && !IsFull(cur.board)
      invariant Replay(st, moves) == Step(cur, Continue) && ComputerChose(st, moves)
      invariant forall j: Index :: st.board[j] != Empty ==> cur.board[j] == st.board[j]
      invariant moves == [] ==> cur == st
      invariant st.controllers[st.turn] == Human ==> moves == []
      decreases EmptyCount(cur.board)
    {
      FullIffNoEmptyCell(cur.board);
      var move := AIMove(cur);
      var step := ProcessMove(cur, move);
      MoveKeepsCount(cur, move);
      ExtendChain(st, moves, cur, move);
      MoveKeepsEarlierMarks(st.board, cur, move);
      moves := moves + [move];
      if !step.outcome.Continue? {
        WinnerHasLine(cur, move);
        return step, moves;
      }
      cur := step.state;
    }
    s := Step(cur, Continue);
  }

  /** A move into a blank cell keeps every mark an earlier board `b0`
      already agreed on with `cur`. */
  lemma MoveKeepsEarlierMarks(b0: Board, cur: State, move: Index)
    requires forall j: Index :: b0[j] != Empty ==> cur.board[j] == b0[j]
    requires CellIsEmpty(cur.board, move)
    ensures forall j: Index :: b0[j] != Empty ==> ProcessMove(cur, move).state.board[j] == b0[j]
  {
    forall j: Index | b0[j] != Empty
      ensures ProcessMove(cur, move).state.board[j] == b0[j]
    {
      assert j != move;
      assert MarkAt(ProcessMove(cur, move).state.board, j) == MarkAt(cur.board, j);
    }
  }

  /** One more computer move at the end of a chain that left play going. */
  lemma ExtendChain(st: State, moves: seq<Index>, cur: State, move: Index)
    requires Replay(st, moves) == Step(cur, Continue) && ComputerChose(st, moves)
    requires cur.controllers[cur.turn] == Computer && move in Candidates(cur)
    ensures Replay(st, moves + [move]) == ProcessMove(cur, move)
    ensures ComputerChose(st, moves + [move])
  {
    var longer := moves + [move];
    assert longer[..|moves|] == moves;
    forall k | 0 <= k < |longer|
      ensures var at := Replay(st, longer[..k]);
        && at.outcome.Continue?
        && at.state.controllers[at.state.turn] == Computer
        && longer[k] in Candidates(at.state)
    {
      if k < |moves| {
        assert longer[..k] == moves[..k];
      }
    }
  }

  // ---------------------------------------------------------------------
  // Properties

  /** The legacy win check is the board's win check for either mark. */
  lemma WinByEitherPlayer(b: Board)
    ensures CheckForWin(b) <==> HasWin(b, O) || HasWin(b, X)
  {
    if HasWin(b, O) {
      var l :| 0 <= l < |Lines| && CountMarks(b, O, l) == 3;
      assert CountMarksFor(b, 0, l) == 3;
    }
    if HasWin(b, X) {
      var l :| 0 <= l < |Lines| && CountMarks(b, X, l) == 3;
      assert CountMarksFor(b, 1, l) == 3;
    }
  }

  /** Every cell lies on at most four lines (the centre on four, corners on
      three, edges on two). */
  lemma AtMostFourLinesPerCell(i: Index)
    ensures LinesThrough(i, 0) <= 4
  {
    assert LinesThrough(i, 0) ==
      (if i in Lines[0] then 1 else 0) + (if i in Lines[1] then 1 else 0)
      + (if i in Lines[2] then 1 else 0) + (if i in Lines[3] then 1 else 0)
      + (if i in Lines[4] then 1 else 0) + (if i in Lines[5] then 1 else 0)
      + (if i in Lines[6] then 1 else 0) + (if i in Lines[7] then 1 else 0);
  }

  /** A raw cell score is at most 4 lines at 20 each. */
  lemma RawScoreBound(b: Board, turn: Turn, i: Index)
    ensures RawFrom(b, turn, i, 0) <= 80
  {
    AtMostFourLinesPerCell(i);
  }

  /** The fold behind maxScore: at least `best` and every blank cell's
      score, and equal to `best` or to one of those scores. */
  lemma {:induction false} MaxFromFold(b: Board, scores: seq<int>, i: int, best: int)
    requires |scores| == 9 && 0 <= i <= 9
    decreases 9 - i
    ensures var v := MaxFrom(b, scores, i, best);
      && v >= best
      && (forall j: Index | i <= j && b[j] == Empty :: v >= scores[j])
      && (v == best || exists j: Index | i <= j && b[j] == Empty :: v == scores[j])
  {
    if i < 9 {
      if b[i] == Empty {
        MaxFromFold(b, scores, i + 1, Max(best, scores[i]));
      } else {
        MaxFromFold(b, scores, i + 1, best);
      }
    }
  }

  /** Selecting the cells that reach maxScore, when occupied cells score -1
      and blank ones at least 0: the selected cells are blank, there is one
      whenever a cell is blank, and they are exactly the blank cells that beat
      or tie every blank cell. */
  lemma MaxSelectsBestBlank(b: Board, scores: seq<int>)
    requires |scores| == 9
    requires forall j: Index :: b[j] != Empty ==> scores[j] == -1
    requires forall j: Index :: b[j] == Empty ==> scores[j] >= 0
    ensures var m := MaxFrom(b, scores, 0, 0);
      && (forall c: Index | scores[c] == m :: b[c] == Empty)
      && ((exists i: Index :: b[i] == Empty) ==> exists c: Index :: scores[c] == m)
      && (forall c: Index, j: Index | scores[c] == m && b[j] == Empty :: scores[c] >= scores[j])
      && (forall c: Index | b[c] == Empty && (forall j: Index | b[j] == Empty :: scores[c] >= scores[j]) ::
            scores[c] == m)
  {
    var m := MaxFrom(b, scores, 0, 0);
    MaxFromFold(b, scores, 0, 0);
    if i: Index :| b[i] == Empty {
      if m == 0 {
        assert scores[i] >= 0;
        assert scores[i] == m;
      } else {
        var j: Index :| b[j] == Empty && m == scores[j];
      }
    }
    forall c: Index | b[c] == Empty && (forall j: Index | b[j] == Empty :: scores[c] >= scores[j])
      ensures scores[c] == m
    {
      if m != 0 {
        var j: Index :| b[j] == Empty && m == scores[j];
      }
    }
  }

  /** A blank cell scoring at least as well as every blank cell. */
  ghost predicate IsBestBlank(st: State, i: int)
  {
    CellIsEmpty(st.board, i) && forall j | CellIsEmpty(st.board, j) :: Score(st, i) >= Score(st, j)
  }

  /** Occupied cells score -1 and blank ones at least 0 against a maximum
      that starts at 0, so the legacy AI only picks blank cells, always has
      one when the board has room, and its candidates are exactly the blank
      cells that score at least as well as every blank cell. */
  lemma CandidatesAreBestEmptyCells(st: State)
    ensures forall c | c in Candidates(st) :: CellIsEmpty(st.board, c)
    ensures (exists i :: CellIsEmpty(st.board, i)) ==> Candidates(st) != {}
    ensures forall c, j | c in Candidates(st) && CellIsEmpty(st.board, j) :: Score(st, c) >= Score(st, j)
    ensures forall i | IsBestBlank(st, i) :: i in Candidates(st)
  {
    var scores := Scores(st);
    assert |scores| == 9 && forall j: Index :: scores[j] == Score(st, j);
    MaxSelectsBestBlank(st.board, scores);
    if i :| CellIsEmpty(st.board, i) {
      var c: Index :| scores[c] == MaxScore(st);
      assert c in Candidates(st);
    }
    BestBlanksAreCandidates(st);
  }

  /** A blank cell that beats or ties every blank cell reaches maxScore. */
  lemma BestBlanksAreCandidates(st: State)
    ensures forall i | IsBestBlank(st, i) :: i in Candidates(st)
  {
    var scores := Scores(st);
    assert |scores| == 9 && forall j: Index :: scores[j] == Score(st, j);
    MaxSelectsBestBlank(st.board, scores);
    forall i | IsBestBlank(st, i)
      ensures i in Candidates(st)
    {
      forall j: Index | st.board[j] == Empty
        ensures scores[i] >= scores[j]
      {
        assert CellIsEmpty(st.board, j);
      }
    }
  }

  /** At strength 0 (threshold 100) every raw score, at most 80, is zeroed:
      every blank cell is a candidate. */
  lemma WeakestPicksAnyEmptyCell(st: State)
    requires st.strengths[st.turn] == 0
    ensures Candidates(st) == set i | 0 <= i < 9 && CellIsEmpty(st.board, i)
  {
    forall i: Index
      ensures Score(st, i) == if st.board[i] == Empty then 0 else -1
    {
      RawScoreBound(st.board, st.turn, i);
    }
    MaxFromFold(st.board, Scores(st), 0, 0);
  }

  /** A move into a blank cell keeps the counter equal to the marks placed,
      so a draw is declared exactly when the board fills without a line, and
      a game that continues still has a blank cell. */
  lemma MoveKeepsCount(st: State, i: Index)
    requires Counted(st) && CellIsEmpty(st.board, i)
    ensures var s := ProcessMove(st, i);
      && (!s.outcome.Won? ==> Counted(s.state))
      && (s.outcome.Drawn? <==> !CheckForWin(s.state.board) && IsFull(s.state.board))
      && (s.outcome.Continue? ==> !IsFull(s.state.board))
  {
    MarkingUsesOneEmptyCell(st.board, i, PlayerChars[st.turn]);
    FullIffNoEmptyCell(ProcessMove(st, i).state.board);
  }

  /** When nobody had a line before the move, the reported winner — the
      player who just moved — is the one holding a line. */
  lemma WinnerHasLine(st: State, i: Index)
    requires !CheckForWin(st.board)
    ensures ProcessMove(st, i).outcome.Won? ==> HasWin(ProcessMove(st, i).state.board, ProcessMove(st, i).outcome.winner)
  {
    var s := ProcessMove(st, i);
    var mover := PlayerChars[st.turn];
    WinByEitherPlayer(st.board);
    WinByEitherPlayer(s.state.board);
    if s.outcome.Won? && !HasWin(s.state.board, mover) {
      assert HasWin(s.state.board, Other(mover));
      PlacingCannotHelpOthers(st.board, i, mover, Other(mover));
      assert false;
    }
  }
}
